=== FILE: README.md ===
# Trend-classifier feature derivation, modelled in Dafny

This project models the feature functions of the trend classifier's
`src/features.py`. Each function takes a daily price frame that has a
`Close` column. It copies the frame and appends technical-analysis columns:

- `add_MA`: 10- and 50-day moving averages.
- `add_EMA`: exponentially weighted mean.
- `add_returns`: daily and log returns.
- `add_volatility`: rolling dispersion of the returns.
- `add_distances`: relative distance of the close to its averages.
- `add_cumulated_returns`: compounded returns.
- `add_rsi`: Relative Strength Index.

Each is a pure Dafny function, from a frame (`map<string, seq<Option<real>>>`)
to a frame. NaN is `None`. Arithmetic is exact over the reals.

The pandas operations used by the source are modelled with their
missing-value rules, in the `Rolling`, `Ewm`, `Returns`, `Distances` and
`Momentum` modules:

- `rolling(window=w)` uses its default `min_periods = w`. A row needs `w` rows
  of history, all present.
- `diff`, `clip`, unary minus and addition of a scalar are modelled. Each
  leaves NaN as NaN.
- `pct_change` is modelled only on closes that are all present and positive
  (see "## Left out"); its default forward-filling over NaN is not.
- `ewm(span=p).mean()` uses `adjust=True`: row `i` is the average of rows
  `0..i` with weights `beta^k`, where `beta = 1 - 2/(p+1)`.
- `std()` is modelled by its square, the `ddof=1` sample variance.
- `np.prod` is applied over a raw window.

The RSI quotient `avg_gain / avg_loss` is modelled with the three IEEE 754
outcomes a quotient of non-negative floats can have: finite, `+inf` and `NaN`.

Two online algorithms are modelled as methods, and each is proved equal to the
window-by-window definition:

- pandas' sliding-window mean, with a running sum and a count of observations.
- pandas' recursive `ewma`.

Module layout:

- `Wrappers`: `Option`.
- `Series`: columns and statistics over them.
- `Rolling`: rolling windows and element-wise transforms.
- `Ewm`: the exponential mean.
- `Returns`: percentage change, log return, variance and compounding.
- `Distances`: relative distance to an average.
- `Momentum`: RSI.
- `Frames`: frames and column names.
- `Features`: one function per Python function.

Two behaviours of the code worth noting:

- When the average loss is zero and the average gain is positive, the code
  gives RSI 100, through `rs = +inf`. It does not give NaN. Over a window of
  present closes, the code gives NaN only when the price did not move at all
  (`0/0`); it is also NaN on the first `period` rows and on every row whose
  window touches a missing close.
- The first value of the EMA is the first close: under the closed form, the
  weights of a one-row prefix normalise to that close. It is not a simple
  average of a seed window.

## Model

| member | source | states |
|---|---|---|
| Features.AddMA | src/features.py:6-25 | Adds exactly MA10 and MA50, keeps every other column and the frame's row count, and each new column is the 10-/50-row window mean of the close (missing unless the whole window is present) |
| Features.MovingAveragesOfCompleteClose | src/features.py:22-23 | With no missing close, MA10 is present exactly from row 9 and MA50 exactly from row 49, each between the lowest and highest close of its window |
| Rolling.RollingMeanOnline | src/features.py:22-23 | Computing the rolling mean by adding the entering cell and dropping the leaving one, with a count of present cells, yields exactly the window-mean column |
| Rolling.WindowSlide | src/features.py:22-23 | Moving the window one row forward changes its present sum and count by the entering cell minus the leaving cell |
| Rolling.RowFromRunningSum | src/features.py:22-23 | A row of the rolling mean is the running sum over w when the window holds w observations, and missing otherwise |
| Rolling.RollingDefinedness | src/features.py:93-96 | If exactly the first `lead` input cells are missing, the rolling output is present exactly from row lead+w-1 on, except that a one-observation sample variance is never present |
| Rolling.MovingAverageOfCompleteColumn | src/features.py:122 | On a gap-free column the moving average is present exactly from row w-1 and lies within its window's minimum and maximum |
| Series.MeanWithinRange | src/features.py:22 | A window mean lies between the window's minimum and maximum |
| Series.MeanZeroIffAllZero | src/features.py:185-186 | A mean of non-negative values is zero exactly when every value is zero |
| Series.SampleVarianceZeroIffConstant | src/features.py:96 | The n-1 sample variance is non-negative and is zero exactly when every value of the window equals the first |
| Features.AddEMA | src/features.py:28-47 | Adds exactly `EMA{period}` and keeps every other column; the new column is the exponential mean `Ema` of the close for span `period` (the value pandas' online recursion computes, by `Ewm.EmaOnline`), present on every row, starting at the first close and staying between the lowest and highest close so far |
| Features.EmaColumnHolds | src/features.py:46 | The span-p exponential mean of a gap-free series is complete, starts at the first value and stays within the prefix range |
| Ewm.Decay | src/features.py:46 | For span >= 1 the decay 1 - 2/(span+1) is in [0, 1) |
| Ewm.EmaStartsAtFirstObservation | src/features.py:46 | The adjusted exponential mean's first row equals the first observation |
| Ewm.EmaWithinPrefixRange | src/features.py:46 | Each row of the exponential mean lies between the minimum and maximum of the observations up to that row |
| Ewm.WeightedAverageBounds | src/features.py:46 | A weighted average with non-negative decayed weights of values in [lo, hi] lies in [lo, hi] |
| Ewm.WeightedSumAppend | src/features.py:46 | Appending an observation multiplies the previous weighted sum by beta and adds the new observation with weight 1 |
| Ewm.TotalWeightStep | src/features.py:46 | The total weight follows the same recursion: one more row multiplies it by beta and adds 1 |
| Ewm.EmaStep | src/features.py:46 | Row i equals (ow*avg + x)/(ow + 1), where avg is row i-1, ow is its decayed total weight and x is the new observation |
| Ewm.EmaRecursion | src/features.py:46 | pandas' online recursion for a decay beta yields, row by row, the closed-form adjusted weighted average |
| Ewm.EmaOnline | src/features.py:46 | The online recursion for `ewm(span).mean()` returns exactly the closed-form EMA column |
| Features.AddReturns | src/features.py:50-69 | Adds exactly Return and Log Return; both are missing exactly on row 0, each return is above -1 and carries close[i-1] to close[i], and each log return is ln(1 + return) |
| Returns.ReturnsInvertPriceSteps | src/features.py:66 | The percentage change is missing exactly on row 0, exceeds -1, and close[i-1]·(1 + return[i]) = close[i] |
| Features.ReturnColumnsHold | src/features.py:66-67 | The return and log-return columns satisfy the inverse-step, bound and logarithm relation together |
| Features.AddVolatility | src/features.py:72-98 | Adds exactly Volatility, which is missing for the first `window` rows (always for window 1); on every other row it is the sample variance of the `window` returns close[k]/close[k-1] - 1 ending there, non-negative, and zero exactly when the return is constant over the window |
| Returns.ReturnVarianceShape | src/features.py:93-96 | The rolling sample variance of the returns is present exactly when 2 <= window <= i, equals the sample variance of the window's returns close[k]/close[k-1] - 1, is non-negative, and is zero exactly on windows of equal returns |
| Features.AddDistances | src/features.py:100-128 | Adds exactly the two distance columns. Distance_MA is present exactly from row madist-1. Distance_EMA is present everywhere and is 0 on row 0. Each distance d to an average m recovers the close as m·(1+d), is zero exactly at m, is positive exactly above m, and is above -1 |
| Distances.DistanceColumnOfHolds | src/features.py:125-126 | For positive closes and any positive average column, the relative-distance column is present exactly where the average is, recovers the close (avg·(1 + d) = close), is zero exactly at the average, positive exactly above it, and above -1 |
| Features.MovingAverageOfPositivePrices | src/features.py:122 | A moving average of positive closes is positive wherever present, so the distance divides by a non-zero value |
| Features.EmaOfPositivePrices | src/features.py:123 | The exponential mean of positive closes is present and positive on every row |
| Distances.DistanceOfValues | src/features.py:125 | For m > 0, d = (x - m)/m satisfies m·(1+d) = x, d = 0 iff x = m, d > 0 iff x > m, d < 0 iff x < m, and d > -1 when x > 0 |
| Features.AddCumulatedReturns | src/features.py:131-156 | Adds exactly `Cumulated_Return_{period}d`, missing for the first `period` rows and otherwise close[i]/close[i-period] - 1 |
| Returns.CumulatedReturnTelescopes | src/features.py:153-154 | The rolling product of (1 + return) minus one is missing for i < p and otherwise equals close[i]/close[i-p] - 1, so only the p latest returns enter |
| Returns.ProductTelescopes | src/features.py:154 | A product of consecutive growth factors equals the ratio of the last price to the price before the first factor |
| Features.AddRsi | src/features.py:159-191 | Adds exactly `RSI{period}`. A row is present only when every close from `i - period` to `i` is present, so it is missing for the first `period` rows and on rows whose window touches a missing close. Over a window of present closes it equals 100·U/(U + D), with U and D the sums of the up- and down-moves, and is missing when U + D = 0: hence 100 if some day rose and none fell, 0 if some day fell and none rose, strictly between 0 and 100 otherwise, and always in [0, 100] where present |
| Features.RsiColumnHolds | src/features.py:180-189 | The RSI column satisfies the prefix, range and four-case window characterisation |
| Momentum.GainLossSplit | src/features.py:180-183 | Gain and loss are missing exactly where the daily change is. Both are non-negative, at most one is non-zero, and gain - loss is the change |
| Momentum.AverageGain | src/features.py:185 | Every present average gain is non-negative |
| Momentum.AverageLoss | src/features.py:186 | Every present average loss is non-negative |
| Momentum.AverageZeroIffAllZero | src/features.py:185-186 | A full window of non-negative cells averages to zero exactly when every cell is zero |
| Momentum.AverageGainZero | src/features.py:185 | Over a window of present closes the average gain is present, and zero exactly when no day rose |
| Momentum.AverageLossZero | src/features.py:186 | Over a window of present closes the average loss is present, and zero exactly when no day fell |
| Momentum.FiniteRatioFormula | src/features.py:188-189 | For a positive average loss, 100 - 100/(1 + g/l) equals 100·g/(g + l) |
| Momentum.RsiClosedForm | src/features.py:188-189 | The IEEE formula equals the closed form 100·g/(g + l), including g > 0 = l giving 100, and is missing exactly when g = l = 0 |
| Momentum.ClosedFormBounds | src/features.py:189 | 100·g/(g + l) lies in [0, 100] |
| Momentum.StrictClosedFormBounds | src/features.py:189 | With both averages positive, 100·g/(g + l) lies strictly between 0 and 100 |
| Momentum.RsiShape | src/features.py:180-189 | RSI is present at row i only when every close from i - period to i is present (hence missing before row `period`), and lies in [0, 100] wherever present |
| Momentum.GainPresentWindow | src/features.py:180-185 | A present average gain at row i needs every close from i - period to i: a missing close makes two daily changes missing, and a window with a missing change has no mean |
| Momentum.RsiOfWindow | src/features.py:180-189 | Over a window of present closes: 100 iff no fall and some rise, missing iff flat, 0 iff no rise and some fall, strictly inside (0, 100) otherwise |
| Momentum.RsiValue | src/features.py:180-189 | Over a window of present closes the RSI `100 - 100/(1 + avg_gain/avg_loss)` equals 100·U/(U + D) for the sums U, D of the up- and down-moves, and is missing exactly when U + D = 0 |
| Momentum.AveragesOfWindow | src/features.py:180-186 | Over a window of present closes the rolling means of gain and loss are present and are the means of the up-moves max(Δ, 0) and down-moves max(-Δ, 0) |
| Momentum.ClosedFormOfSums | src/features.py:188-189 | The RSI of averages u/n and d/n equals 100·u/(u + d), and is missing when u + d = 0 |
| Frames.NatToStringRoundTrip | src/features.py:46 | Reading back the decimal rendering of a period gives the period |
| Frames.PeriodNameInjective | src/features.py:46 | With the same prefix and suffix, different periods name different columns, so `EMA{p}`, `RSI{p}` and `Cumulated_Return_{p}d` are injective in `p` |
| Frames.DistanceNamesDiffer | src/features.py:125-126 | `Distance_MA{a}` and `Distance_EMA{b}` never coincide, so the second assignment never overwrites the first |
| Frames.PeriodName | src/features.py:46 | A column name built from a prefix that does not start like "Close" (`EMA`, `RSI`, `Distance_MA`, `Distance_EMA`, `Cumulated_Return_`) is never "Close", so adding it never overwrites the price column |

## Left out

- `src/data_loader.py` downloads prices over the network. It is not part of this model: the model starts from a frame already in memory.
- Floating point is not modelled. Values are exact reals, so rounding, overflow and signed zero are absent. The IEEE rules are kept only for `x/0` in the RSI quotient.
- Features.AddVolatility: stores the rolling sample variance of the returns, not its square root `std()`. Dafny has no real square root. Missing rows, non-negativity and the zero case are the same for both.
- Features.AddReturns: `np.log` is a parameter `ln`, because Dafny has no logarithm. The model states Log Return = ln(1 + Return) for that parameter.
- Features.AddEMA: requires a Close column with no missing value. pandas' `ewm` over NaN gaps (the `ignore_na=False` reweighting) is not modelled.
- Features.AddReturns, Features.AddVolatility, Features.AddDistances and Features.AddCumulatedReturns require every close to be present and positive. Two behaviours are therefore not modelled:
  - `pct_change` forward-filling over NaN;
  - division by a zero price or zero average, which gives `inf`, `-inf` or NaN in pandas.
- Features.AddMA and Features.AddRsi accept any Close column, with gaps.
- Features.AddVolatility: requires `window >= 1`. pandas rejects only negative rolling windows, so the source also accepts `window=0`; that case is not modelled.
- Features.AddRsi: requires `period >= 1`. The source also accepts `period=0` for the rolling means; that case is not modelled.
- Features.AddDistances: requires `madist >= 1`; the source also accepts `madist=0` for the rolling mean, which is not modelled. `emadist` is a natural number, while `ewm` accepts any real span of at least 1.
- Features.AddCumulatedReturns: requires `period >= 1`. The source also accepts `period=0`, which applies `np.prod` to empty windows; that case is not modelled.
- Features.AddEMA: `period` is a natural number of at least 1; `ewm` rejects a span below 1 but accepts a non-integer span, which is not modelled.
- Python's default arguments are explicit parameters:
  - `add_EMA` period=20;
  - `add_volatility` window=20;
  - `add_distances` madist=50 and emadist=20;
  - `add_cumulated_returns` period=5;
  - `add_rsi` period=14.
- `df.copy()` is implicit in the value semantics of Dafny maps. The index, column order and dtypes of the frame are not modelled.
- pandas computes the rolling variance with an online (Welford) update. The model uses the two-pass definition. The online algorithm is modelled only for the rolling mean and the exponential mean.
- No label or crossover-label function exists in the source, so none is modelled.

=== FILE: distances.dfy ===
/**
 Normalised distance of the close to an average of it, `(close - avg) / avg`,
 element-wise with NaN propagation.
 */
module Distances {
  import opened Wrappers
  import opened Series

  /** `(c - avg) / avg`; a row is missing when either operand is. */
  function RelativeDistance(c: Column, avg: Column): (r: Column)
    requires |avg| == |c|
    requires forall i :: 0 <= i < |c| ==> avg[i].Some? ==> avg[i].value != 0.0
    ensures |r| == |c|
  {
    seq(|c|, i requires 0 <= i < |c| =>
      if c[i].None? || avg[i].None? then None else Some((c[i].value - avg[i].value) / avg[i].value))
  }

  lemma PositiveFactor(m: real, e: real, x: real)
    requires m > 0.0 && m * e == x && x > 0.0
    ensures e > 0.0
  {
  }

  /**
   For a positive average the distance recovers the close (`avg * (1 + d) = x`),
   is zero exactly at the average, has the sign of `x - avg`, and stays above -1
   for a positive close.
   */
  lemma DistanceOfValues(x: real, m: real)
    requires m > 0.0
    ensures var d := (x - m) / m;
            && m * (1.0 + d) == x
            && (d == 0.0 <==> x == m)
            && (d > 0.0 <==> x > m)
            && (d < 0.0 <==> x < m)
            && (x > 0.0 ==> d > -1.0)
  {
    var d := (x - m) / m;
    assert m * d == x - m;
    assert m * (1.0 + d) == m + m * d;
    if d > 0.0 {
      assert m * d > 0.0;
    } else if d < 0.0 {
      assert m * d < 0.0;
    }
    assert m * (1.0 + d) == x;
    if x > 0.0 {
      PositiveFactor(m, 1.0 + d, x);
    }
  }

  /**
   `d` is the distance of the positive close to the average `avg` relative to
   it: present exactly where `avg` is, it recovers the close
   (`avg * (1 + d) = close`), is zero exactly when the close is at the average,
   positive exactly when above it, and always above -1.
   */
  ghost predicate DistanceColumnOf(c: Column, avg: Column, d: Column)
    requires PositivePrices(c)
  {
    && |avg| == |c| && |d| == |c|
    && forall i :: 0 <= i < |c| ==>
         && (d[i].Some? <==> avg[i].Some?)
         && (d[i].Some? ==>
               var x, m := c[i].value, avg[i].value;
               && m * (1.0 + d[i].value) == x
               && (d[i].value == 0.0 <==> x == m)
               && (d[i].value > 0.0 <==> x > m)
               && d[i].value > -1.0)
  }

  /** The row-wise reading of `DistanceOfValues` over a whole column of positive averages. */
  lemma DistanceColumnOfHolds(c: Column, avg: Column)
    requires PositivePrices(c) && |avg| == |c|
    requires forall i :: 0 <= i < |c| ==> avg[i].Some? ==> avg[i].value > 0.0
    ensures DistanceColumnOf(c, avg, RelativeDistance(c, avg))
  {
    forall i | 0 <= i < |c| && avg[i].Some?
      ensures var d, x, m := RelativeDistance(c, avg)[i].value, c[i].value, avg[i].value;
              && m * (1.0 + d) == x
              && (d == 0.0 <==> x == m)
              && (d > 0.0 <==> x > m)
              && d > -1.0
    {
      DistanceOfValues(c[i].value, avg[i].value);
    }
  }
}

=== FILE: ewm.dfy ===
/**
 Exponentially weighted mean `ewm(span=p).mean()` with pandas' default `adjust=True`:
 row i is the average of rows 0..i in which row i-k has weight beta^k,
 beta = 1 - alpha and alpha = 2 / (p + 1). The first value is the first observation.
 */
module Ewm {
  import opened Wrappers
  import opened Series

  function Pow(b: real, k: nat): real
  {
    if k == 0 then 1.0 else b * Pow(b, k - 1)
  }

  /** The decay `1 - alpha` of `ewm(span=span)`; pandas accepts only `span >= 1`. */
  function Decay(span: nat): (beta: real)
    requires span >= 1
    ensures 0.0 <= beta < 1.0
  {
    1.0 - 2.0 / (span as real + 1.0)
  }

  /** Sum over k of beta^k * s[|s|-1-k]: the newest value has weight 1. */
  function WeightedSum(s: seq<real>, beta: real): real
  {
    if |s| == 0 then 0.0 else Pow(beta, |s| - 1) * s[0] + WeightedSum(s[1..], beta)
  }

  /** Sum over k < n of beta^k. */
  function TotalWeight(n: nat, beta: real): real
  {
    if n == 0 then 0.0 else Pow(beta, n - 1) + TotalWeight(n - 1, beta)
  }

  lemma {:induction false} PowNonNegative(b: real, k: nat)
    requires b >= 0.0
    ensures Pow(b, k) >= 0.0
  {
    if k > 0 {
      PowNonNegative(b, k - 1);
      assert b * Pow(b, k - 1) >= 0.0;
    }
  }

  /** The newest observation always weighs 1, so a non-empty prefix has total weight at least 1. */
  lemma {:induction false} TotalWeightAtLeastOne(n: nat, beta: real)
    requires n >= 1 && beta >= 0.0
    ensures TotalWeight(n, beta) >= 1.0
  {
    if n > 1 {
      TotalWeightAtLeastOne(n - 1, beta);
      PowNonNegative(beta, n - 1);
    }
  }

  lemma MulMonotone(p: real, a: real, b: real)
    requires p >= 0.0 && a <= b
    ensures p * a <= p * b
  {
  }

  lemma Distribute(c: real, p: real, t: real, total: real)
    requires total == p + t
    ensures c * total == p * c + c * t
  {
  }

  lemma ProductNonNegative(a: real, b: real)
    requires a >= 0.0 && b >= 0.0
    ensures a * b >= 0.0
  {
  }

  /** Dividing a weighted sum by its (positive) total weight. */
  lemma DivideByWeight(ws: real, tw: real, lo: real, hi: real)
    requires tw > 0.0
    requires lo * tw <= ws <= hi * tw
    ensures lo <= ws / tw <= hi
  {
    var q := ws / tw;
    assert q * tw == ws;
  }

  lemma AppendAlgebra(beta: real, p: real, first: real, rest: real, restX: real, x: real, wt: real, ws: real)
    requires restX == beta * rest + x
    requires wt == (beta * p) * first + restX && ws == p * first + rest
    ensures wt == beta * ws + x
  {
    assert (beta * p) * first == beta * (p * first);
  }

  /** Appending an observation decays every earlier weight by beta. */
  lemma {:induction false} WeightedSumAppend(s: seq<real>, x: real, beta: real)
    ensures WeightedSum(s + [x], beta) == beta * WeightedSum(s, beta) + x
  {
    var t := s + [x];
    if |s| == 0 {
      assert t[1..] == [];
    } else {
      assert t[0] == s[0];
      assert t[1..] == s[1..] + [x];
      WeightedSumAppend(s[1..], x, beta);
      var p := Pow(beta, |s| - 1);
      var rest, restX := WeightedSum(s[1..], beta), WeightedSum(s[1..] + [x], beta);
      var wt, ws := WeightedSum(t, beta), WeightedSum(s, beta);
      assert Pow(beta, |s|) == beta * p;
      assert wt == (beta * p) * s[0] + restX;
      AppendAlgebra(beta, p, s[0], rest, restX, x, wt, ws);
    }
  }

  /** The total weight follows the same recursion with every observation equal to 1. */
  lemma {:induction false} TotalWeightStep(n: nat, beta: real)
    ensures TotalWeight(n + 1, beta) == beta * TotalWeight(n, beta) + 1.0
  {
    if n > 0 {
      TotalWeightStep(n - 1, beta);
      calc {
        TotalWeight(n + 1, beta);
        == Pow(beta, n) + TotalWeight(n, beta);
        == beta * Pow(beta, n - 1) + beta * TotalWeight(n - 1, beta) + 1.0;
        == beta * (Pow(beta, n - 1) + TotalWeight(n - 1, beta)) + 1.0;
      }
    }
  }

  /** With non-negative weights, raising observations cannot lower the weighted sum. */
  lemma {:induction false} WeightedSumMonotone(s: seq<real>, t: seq<real>, beta: real)
    requires beta >= 0.0 && |s| == |t|
    requires forall k :: 0 <= k < |s| ==> s[k] <= t[k]
    ensures WeightedSum(s, beta) <= WeightedSum(t, beta)
  {
    if |s| > 0 {
      assert forall k :: 0 <= k < |s[1..]| ==> s[1..][k] == s[k + 1] && t[1..][k] == t[k + 1];
      WeightedSumMonotone(s[1..], t[1..], beta);
      PowNonNegative(beta, |s| - 1);
      MulMonotone(Pow(beta, |s| - 1), s[0], t[0]);
    }
  }

  function Constant(c: real, n: nat): (r: seq<real>)
    ensures |r| == n
  {
    seq(n, _ => c)
  }

  /** Weighting a constant series gives the constant times the total weight. */
  lemma {:induction false} WeightedSumOfConstant(c: real, n: nat, beta: real)
    ensures WeightedSum(Constant(c, n), beta) == c * TotalWeight(n, beta)
  {
    if n > 0 {
      assert Constant(c, n)[1..] == Constant(c, n - 1);
      WeightedSumOfConstant(c, n - 1, beta);
      Distribute(c, Pow(beta, n - 1), TotalWeight(n - 1, beta), TotalWeight(n, beta));
    }
  }

  /** A weighted sum of values in [lo, hi] lies between lo and hi times the total weight. */
  lemma WeightedSumBounds(s: seq<real>, beta: real, lo: real, hi: real)
    requires beta >= 0.0
    requires forall k :: 0 <= k < |s| ==> lo <= s[k] <= hi
    ensures lo * TotalWeight(|s|, beta) <= WeightedSum(s, beta) <= hi * TotalWeight(|s|, beta)
  {
    WeightedSumMonotone(Constant(lo, |s|), s, beta);
    WeightedSumMonotone(s, Constant(hi, |s|), beta);
    WeightedSumOfConstant(lo, |s|, beta);
    WeightedSumOfConstant(hi, |s|, beta);
  }

  /** Row `i` of the adjusted exponentially weighted mean with decay `beta`, over a series without gaps. */
  function EmaAt(s: seq<real>, beta: real, i: nat): real
    requires 0.0 <= beta && i < |s|
  {
    TotalWeightAtLeastOne(i + 1, beta);
    WeightedSum(s[..i + 1], beta) / TotalWeight(i + 1, beta)
  }

  /** `ewm(span=span).mean()`. */
  function Ema(s: seq<real>, span: nat): (r: Column)
    requires span >= 1
    ensures |r| == |s|
  {
    seq(|s|, i requires 0 <= i < |s| => Some(EmaAt(s, Decay(span), i)))
  }

  /** The first value of the adjusted mean is the first observation itself. */
  lemma EmaStartsAtFirstObservation(s: seq<real>, beta: real)
    requires 0.0 <= beta
    ensures |s| > 0 ==> EmaAt(s, beta, 0) == s[0]
  {
    if |s| > 0 {
      assert s[..1][1..] == [];
      assert WeightedSum(s[..1], beta) == Pow(beta, 0) * s[0] + WeightedSum([], beta);
      assert WeightedSum(s[..1], beta) == s[0];
      assert TotalWeight(1, beta) == 1.0;
    }
  }

  /** A weighted average `ws / tw` of values in [lo, hi] lies in [lo, hi]. */
  lemma WeightedAverageBounds(s: seq<real>, beta: real, lo: real, hi: real, ws: real, tw: real)
    requires beta >= 0.0 && |s| > 0
    requires ws == WeightedSum(s, beta) && tw == TotalWeight(|s|, beta)
    requires forall k :: 0 <= k < |s| ==> lo <= s[k] <= hi
    ensures tw > 0.0
    ensures lo <= ws / tw <= hi
  {
    assert lo * tw <= ws <= hi * tw by {
      WeightedSumBounds(s, beta, lo, hi);
    }
    assert tw >= 1.0 by {
      TotalWeightAtLeastOne(|s|, beta);
    }
    DivideByWeight(ws, tw, lo, hi);
  }

  /** Every value is a weighted average of the prefix, so it lies between the prefix's extremes. */
  lemma EmaWithinPrefixRange(s: seq<real>, beta: real, i: nat)
    requires 0.0 <= beta && i < |s|
    ensures Min(s[..i + 1]) <= EmaAt(s, beta, i) <= Max(s[..i + 1])
  {
    var prefix := s[..i + 1];
    WeightedAverageBounds(prefix, beta, Min(prefix), Max(prefix), WeightedSum(prefix, beta), TotalWeight(i + 1, beta));
  }

  /** Row `i` of the adjusted mean `q` times its total weight `tw` is the weighted sum `ws` of the prefix. */
  lemma EmaTimesWeight(s: seq<real>, beta: real, i: nat, tw: real, ws: real, q: real)
    requires 0.0 <= beta && i < |s|
    requires tw == TotalWeight(i + 1, beta) && ws == WeightedSum(s[..i + 1], beta) && q == EmaAt(s, beta, i)
    ensures q * tw == ws
  {
    TotalWeightAtLeastOne(i + 1, beta);
    assert q == ws / tw;
  }

  /** Appending row `i` to the prefix: both the total weight and the weighted sum decay by beta and gain the new term. */
  lemma AppendRow(s: seq<real>, beta: real, i: nat, tw: real, ws: real, tw1: real, ws1: real)
    requires 0.0 <= beta && 1 <= i < |s|
    requires tw == TotalWeight(i, beta) && ws == WeightedSum(s[..i], beta)
    requires tw1 == TotalWeight(i + 1, beta) && ws1 == WeightedSum(s[..i + 1], beta)
    ensures tw >= 1.0
    ensures tw1 == beta * tw + 1.0 && ws1 == beta * ws + s[i]
  {
    TotalWeightAtLeastOne(i, beta);
    TotalWeightStep(i, beta);
    assert s[..i + 1] == s[..i] + [s[i]];
    WeightedSumAppend(s[..i], s[i], beta);
  }

  /** The arithmetic of one recursion step, on plain numbers. */
  lemma StepAlgebra(beta: real, tw: real, ws: real, ow: real, avg: real, x: real, q: real, tw1: real, ws1: real)
    requires beta >= 0.0 && tw >= 1.0
    requires ow == tw * beta && avg * tw == ws
    requires tw1 == beta * tw + 1.0 && ws1 == beta * ws + x && q * tw1 == ws1
    ensures ow + 1.0 > 0.0
    ensures q == (ow * avg + x) / (ow + 1.0)
  {
    ProductNonNegative(tw, beta);
    assert ow * avg == beta * ws by {
      assert ow * avg == beta * (avg * tw);
    }
    assert tw1 == ow + 1.0;
  }

  /**
   One step of pandas' recursion: the previous average `avg` keeps the decayed
   total weight `ow` of the earlier rows, the new observation gets weight 1.
   */
  lemma EmaStep(s: seq<real>, beta: real, i: nat, ow: real, avg: real)
    requires 0.0 <= beta && 1 <= i < |s|
    requires ow == TotalWeight(i, beta) * beta
    requires avg == EmaAt(s, beta, i - 1)
    ensures ow + 1.0 > 0.0
    ensures EmaAt(s, beta, i) == (ow * avg + s[i]) / (ow + 1.0)
  {
    var tw, ws := TotalWeight(i, beta), WeightedSum(s[..i], beta);
    var tw1, ws1 := TotalWeight(i + 1, beta), WeightedSum(s[..i + 1], beta);
    var q := EmaAt(s, beta, i);
    AppendRow(s, beta, i, tw, ws, tw1, ws1);
    EmaTimesWeight(s, beta, i - 1, tw, ws, avg);
    EmaTimesWeight(s, beta, i, tw1, ws1, q);
    StepAlgebra(beta, tw, ws, ow, avg, s[i], q, tw1, ws1);
  }

  /** pandas' online `ewma` recursion with `adjust=True` for decay `beta`. */
  method EmaRecursion(s: seq<real>, beta: real) returns (r: Column)
    requires 0.0 <= beta
    ensures |r| == |s|
    ensures forall k :: 0 <= k < |s| ==> r[k] == Some(EmaAt(s, beta, k))
  {
    if |s| == 0 {
      return [];
    }
    var weighted := s[0];
    var oldWeight := 1.0;
    EmaStartsAtFirstObservation(s, beta);
    r := [Some(weighted)];
    var i := 1;
    while i < |s|
      invariant 1 <= i <= |s|
      invariant |r| == i
      invariant forall k :: 0 <= k < i ==> r[k] == Some(EmaAt(s, beta, k))
      invariant oldWeight == TotalWeight(i, beta)
      invariant weighted == EmaAt(s, beta, i - 1)
    {
      TotalWeightStep(i, beta);
      oldWeight := oldWeight * beta;
      EmaStep(s, beta, i, oldWeight, weighted);
      weighted := (oldWeight * weighted + s[i]) / (oldWeight + 1.0);
      oldWeight := oldWeight + 1.0;
      r := r + [Some(weighted)];
      i := i + 1;
    }
  }

  /** `ewm(span=span).mean()` computed online, equal to the closed-form weighted average. */
  method EmaOnline(s: seq<real>, span: nat) returns (r: Column)
    requires span >= 1
    ensures r == Ema(s, span)
  {
    r := EmaRecursion(s, Decay(span));
  }
}

=== FILE: features.dfy ===
/**
 The feature functions of the trend classifier. Each takes a price frame with
 a "Close" column, works on a copy, and returns it with its feature columns
 added; the parameters the Python functions default (spans, windows, periods)
 are explicit arguments here.
 */
module Features {
  import opened Wrappers
  import opened Series
  import opened Rolling
  import opened Ewm
  import opened Returns
  import opened Distances
  import opened Momentum
  import opened Frames

  /** `add_MA`: the 10- and 50-day simple moving averages of the close. */
  function AddMA(df: Frame): (r: Frame)
    requires WellFormed(df)
    ensures AppendsOnly(df, r, {"MA10", "MA50"}) && WellFormed(r)
    ensures IsMovingAverage(r["MA10"], df[CloseName], 10)
    ensures IsMovingAverage(r["MA50"], df[CloseName], 50)
  {
    var close := df[CloseName];
    df["MA10" := MovingAverage(close, 10)]["MA50" := MovingAverage(close, 50)]
  }

  /** With no missing close, MA10 is present from row 9 on and MA50 from row 49 on, each within its window's range. */
  lemma MovingAveragesOfCompleteClose(df: Frame)
    requires WellFormed(df) && Complete(df[CloseName])
    ensures var r, c := AddMA(df), df[CloseName];
            forall i :: 0 <= i < |c| ==>
              && (r["MA10"][i].Some? <==> 9 <= i)
              && (r["MA50"][i].Some? <==> 49 <= i)
              && (9 <= i ==> Min(Values(Window(c, 10, i))) <= r["MA10"][i].value <= Max(Values(Window(c, 10, i))))
              && (49 <= i ==> Min(Values(Window(c, 50, i))) <= r["MA50"][i].value <= Max(Values(Window(c, 50, i))))
  {
    MovingAverageOfCompleteColumn(df[CloseName], 10);
    MovingAverageOfCompleteColumn(df[CloseName], 50);
  }

  /** `e` is present on every row, starts at the first close, and stays between the lowest and highest close so far. */
  ghost predicate EmaColumn(c: seq<real>, e: Column)
  {
    && |e| == |c|
    && Complete(e)
    && (|c| > 0 ==> e[0] == Some(c[0]))
    && forall i :: 0 <= i < |c| ==> Min(c[..i + 1]) <= e[i].value <= Max(c[..i + 1])
  }

  lemma EmaColumnHolds(c: seq<real>, span: nat)
    requires span >= 1
    ensures EmaColumn(c, Ema(c, span))
  {
    EmaStartsAtFirstObservation(c, Decay(span));
    forall i | 0 <= i < |c|
      ensures Min(c[..i + 1]) <= Ema(c, span)[i].value <= Max(c[..i + 1])
    {
      EmaWithinPrefixRange(c, Decay(span), i);
    }
  }

  /** `add_EMA`: the exponentially weighted mean of the close with span `period`, in column `EMA{period}`. */
  function AddEMA(df: Frame, period: nat): (r: Frame)
    requires WellFormed(df) && Complete(df[CloseName]) && period >= 1
    ensures AppendsOnly(df, r, {EmaName(period)}) && WellFormed(r)
    ensures r[EmaName(period)] == Ema(Values(df[CloseName]), period)
    ensures EmaColumn(Values(df[CloseName]), r[EmaName(period)])
  {
    var close := Values(df[CloseName]);
    EmaColumnHolds(close, period);
    df[EmaName(period) := Ema(close, period)]
  }

  /**
   The daily return `ret` is missing on the first row only; it turns each close
   into the next (`close[i-1] * (1 + ret) = close[i]`) and stays above -1, and
   the log return `logRet` is the logarithm of one plus it.
   */
  ghost predicate ReturnColumns(c: Column, ret: Column, logRet: Column, ln: real -> real)
    requires PositivePrices(c)
  {
    && |ret| == |c| && |logRet| == |c|
    && (forall i :: 0 <= i < |c| ==> (ret[i].Some? <==> 1 <= i) && (logRet[i].Some? <==> 1 <= i))
    && forall i :: 1 <= i < |c| ==>
         && ret[i].value > -1.0
         && c[i - 1].value * (1.0 + ret[i].value) == c[i].value
         && logRet[i].value == ln(1.0 + ret[i].value)
  }

  lemma ReturnColumnsHold(c: Column, ln: real -> real)
    requires PositivePrices(c)
    ensures ReturnColumns(c, PctChange(c), LogReturns(c, ln), ln)
  {
    ReturnsInvertPriceSteps(c);
  }

  /** `add_returns`: the "Return" and "Log Return" columns. */
  function AddReturns(df: Frame, ln: real -> real): (r: Frame)
    requires WellFormed(df) && PositivePrices(df[CloseName])
    ensures AppendsOnly(df, r, {"Return", "Log Return"}) && WellFormed(r)
    ensures ReturnColumns(df[CloseName], r["Return"], r["Log Return"], ln)
  {
    var close := df[CloseName];
    ReturnColumnsHold(close, ln);
    df["Return" := PctChange(close)]["Log Return" := LogReturns(close, ln)]
  }

  /**
   The rolling dispersion `v` of the daily returns over `window` days is missing
   for the first `window` rows (and always for a one-day window); elsewhere it
   is the sample variance of the window's returns, non-negative, and zero
   exactly when the return is the same on every day of the window.
   */
  ghost predicate VolatilityColumn(c: Column, window: nat, v: Column)
    requires PositivePrices(c)
  {
    var ret := PctChange(c);
    && |v| == |c|
    && (forall i :: 0 <= i < |c| ==> (v[i].Some? <==> 2 <= window <= i))
    && forall i :: 2 <= window <= i < |c| ==>
         && v[i].value == SampleVariance(ReturnWindow(c, window, i))
         && v[i].value >= 0.0
         && (v[i].value == 0.0 <==> forall k :: i + 1 - window <= k <= i ==> ret[k] == ret[i + 1 - window])
  }

  /** `add_volatility`: the "Volatility" column. */
  function AddVolatility(df: Frame, window: nat): (r: Frame)
    requires WellFormed(df) && PositivePrices(df[CloseName]) && window >= 1
    ensures AppendsOnly(df, r, {"Volatility"}) && WellFormed(r)
    ensures VolatilityColumn(df[CloseName], window, r["Volatility"])
  {
    var close := df[CloseName];
    ReturnVarianceShape(close, window);
    df["Volatility" := ReturnVariance(close, window)]
  }

  /** A window of positive closes has a positive minimum. */
  lemma WindowMinPositive(c: Column, w: nat, i: nat)
    requires PositivePrices(c) && 1 <= w <= i + 1 <= |c|
    ensures Min(Values(Window(c, w, i))) > 0.0
  {
    var win := Values(Window(c, w, i));
    var k :| 0 <= k < |win| && Min(win) == win[k];
    assert Window(c, w, i)[k] == c[i + 1 - w + k];
  }

  /** A moving average of positive closes is positive wherever it is present. */
  lemma MovingAverageOfPositivePrices(c: Column, w: nat)
    requires PositivePrices(c) && w >= 1
    ensures forall i :: 0 <= i < |c| ==> MovingAverage(c, w)[i].Some? ==> MovingAverage(c, w)[i].value > 0.0
  {
    MovingAverageOfCompleteColumn(c, w);
    forall i | w <= i + 1 <= |c|
      ensures Min(Values(Window(c, w, i))) > 0.0
    {
      WindowMinPositive(c, w, i);
    }
  }

  /** An exponential mean of positive closes is present and positive on every row. */
  lemma EmaOfPositivePrices(c: Column, span: nat)
    requires PositivePrices(c) && span >= 1
    ensures forall i :: 0 <= i < |c| ==> Ema(Values(c), span)[i].Some? && Ema(Values(c), span)[i].value > 0.0
  {
    var s := Values(c);
    forall i | 0 <= i < |c|
      ensures EmaAt(s, Decay(span), i) > 0.0
    {
      EmaWithinPrefixRange(s, Decay(span), i);
      var k :| 0 <= k < i + 1 && Min(s[..i + 1]) == s[..i + 1][k];
    }
  }

  /**
   `add_distances`: columns `Distance_MA{madist}` and `Distance_EMA{emadist}`,
   the relative distance of the close to its `madist`-day moving average
   (present from row `madist - 1` on) and to its `emadist`-span exponential
   mean (present everywhere, zero on the first row).
   */
  function AddDistances(df: Frame, madist: nat, emadist: nat): (r: Frame)
    requires WellFormed(df) && PositivePrices(df[CloseName]) && madist >= 1 && emadist >= 1
    ensures AppendsOnly(df, r, {DistanceMaName(madist), DistanceEmaName(emadist)}) && WellFormed(r)
    ensures var c := df[CloseName];
            && DistanceColumnOf(c, MovingAverage(c, madist), r[DistanceMaName(madist)])
            && DistanceColumnOf(c, Ema(Values(c), emadist), r[DistanceEmaName(emadist)])
    ensures forall i :: 0 <= i < |df[CloseName]| ==> (MovingAverage(df[CloseName], madist)[i].Some? <==> madist <= i + 1)
    ensures |df[CloseName]| > 0 ==> r[DistanceEmaName(emadist)][0] == Some(0.0)
  {
    var close := df[CloseName];
    var ma, ema := MovingAverage(close, madist), Ema(Values(close), emadist);
    DistanceNamesDiffer(madist, emadist);
    MovingAverageOfPositivePrices(close, madist);
    EmaOfPositivePrices(close, emadist);
    MovingAverageOfCompleteColumn(close, madist);
    DistanceColumnOfHolds(close, ma);
    DistanceColumnOfHolds(close, ema);
    EmaStartsAtFirstObservation(Values(close), Decay(emadist));
    df[DistanceMaName(madist) := RelativeDistance(close, ma)][DistanceEmaName(emadist) := RelativeDistance(close, ema)]
  }

  /**
   `add_cumulated_returns`: the compounded return over the last `period` days,
   missing for the first `period` rows and otherwise the price ratio across the
   window minus one.
   */
  function AddCumulatedReturns(df: Frame, period: nat): (r: Frame)
    requires WellFormed(df) && PositivePrices(df[CloseName]) && period >= 1
    ensures AppendsOnly(df, r, {CumulatedReturnName(period)}) && WellFormed(r)
    ensures forall i :: 0 <= i < |df[CloseName]| ==>
              var c := df[CloseName];
              r[CumulatedReturnName(period)][i] == if i < period then None else Some(c[i].value / c[i - period].value - 1.0)
  {
    var close := df[CloseName];
    CumulatedReturnTelescopes(close, period);
    df[CumulatedReturnName(period) := CumulatedReturns(close, period)]
  }

  /**
   The RSI column `rsi` is present only on rows whose closes from `i - period`
   to `i` are all present (so never on the first `period` rows) and lies in
   [0, 100] where present. Over a window of present closes it is
   `100 * U / (U + D)`, with `U` and `D` the sums of the up- and down-moves:
   100 when no day fell and some day rose, 0 when no day rose and some day
   fell, missing when the price did not move, and strictly between 0 and 100
   otherwise.
   */
  ghost predicate RsiColumn(c: Column, period: nat, rsi: Column)
  {
    && |rsi| == |c|
    && (forall i :: 0 <= i < |c| && rsi[i].Some? ==> WindowPresent(c, period, i))
    && (forall i :: 0 <= i < |c| && i < period ==> rsi[i].None?)
    && (forall i :: 0 <= i < |c| && rsi[i].Some? ==> 0.0 <= rsi[i].value <= 100.0)
    && (forall i: nat :: WindowPresent(c, period, i) ==>
          var u, d := Sum(UpMoves(c, period, i)), Sum(DownMoves(c, period, i));
          rsi[i] == if u + d == 0.0 then None else Some(100.0 * u / (u + d)))
    && forall i: nat :: WindowPresent(c, period, i) ==>
         && (NoDownMove(c, period, i) && !NoUpMove(c, period, i) ==> rsi[i] == Some(100.0))
         && (NoDownMove(c, period, i) && NoUpMove(c, period, i) ==> rsi[i] == None)
         && (!NoDownMove(c, period, i) && NoUpMove(c, period, i) ==> rsi[i] == Some(0.0))
         && (!NoDownMove(c, period, i) && !NoUpMove(c, period, i) ==> rsi[i].Some? && 0.0 < rsi[i].value < 100.0)
  }

  lemma RsiColumnHolds(c: Column, period: nat)
    requires period >= 1
    ensures RsiColumn(c, period, Rsi(c, period))
  {
    RsiShape(c, period);
    forall i: nat | WindowPresent(c, period, i)
      ensures var u, d := Sum(UpMoves(c, period, i)), Sum(DownMoves(c, period, i));
              Rsi(c, period)[i] == if u + d == 0.0 then None else Some(100.0 * u / (u + d))
    {
      RsiValue(c, period, i);
    }
    forall i: nat | WindowPresent(c, period, i)
      ensures && (NoDownMove(c, period, i) && !NoUpMove(c, period, i) ==> Rsi(c, period)[i] == Some(100.0))
              && (NoDownMove(c, period, i) && NoUpMove(c, period, i) ==> Rsi(c, period)[i] == None)
              && (!NoDownMove(c, period, i) && NoUpMove(c, period, i) ==> Rsi(c, period)[i] == Some(0.0))
              && (!NoDownMove(c, period, i) && !NoUpMove(c, period, i) ==>
                    Rsi(c, period)[i].Some? && 0.0 < Rsi(c, period)[i].value < 100.0)
    {
      RsiOfWindow(c, period, i);
    }
  }

  /** `add_rsi`: the `period`-day Relative Strength Index in column `RSI{period}`. */
  function AddRsi(df: Frame, period: nat): (r: Frame)
    requires WellFormed(df) && period >= 1
    ensures AppendsOnly(df, r, {RsiName(period)}) && WellFormed(r)
    ensures RsiColumn(df[CloseName], period, r[RsiName(period)])
  {
    var close := df[CloseName];
    RsiColumnHolds(close, period);
    df[RsiName(period) := Rsi(close, period)]
  }
}

=== FILE: frames.dfy ===
/**
 A price frame: named float columns of one common length, among them the
 daily closing price "Close". Feature functions work on a copy of the frame
 and add (or overwrite) named columns.
 */
module Frames {
  import opened Series

  type Frame = map<string, Column>

  const CloseName: string := "Close"

  /** A frame with a "Close" column in which every column has the frame's length. */
  predicate WellFormed(df: Frame)
  {
    && CloseName in df
    && forall name :: name in df ==> |df[name]| == |df[CloseName]|
  }

  /** `r` is `df` with the columns `written` set: no column is removed and no other one changes. */
  predicate AppendsOnly(df: Frame, r: Frame, written: set<string>)
  {
    && r.Keys == df.Keys + written
    && forall name :: name in df && name !in written ==> r[name] == df[name]
  }

  function Digit(d: nat): (ch: char)
    requires d < 10
    ensures '0' <= ch <= '9'
  {
    "0123456789"[d]
  }

  function DigitValue(ch: char): nat
  {
    if '0' <= ch <= '9' then (ch as int - '0' as int) as nat else 0
  }

  /** Decimal rendering of a natural number, as Python's `f"{n}"` writes an `int`. */
  function NatToString(n: nat): (s: string)
    ensures |s| >= 1
    ensures forall k :: 0 <= k < |s| ==> '0' <= s[k] <= '9'
  {
    if n < 10 then [Digit(n)] else NatToString(n / 10) + [Digit(n % 10)]
  }

  /** Reads a string of decimal digits back as a number. */
  function ParseNat(s: string): nat
  {
    if |s| == 0 then 0 else ParseNat(s[..|s| - 1]) * 10 + DigitValue(s[|s| - 1])
  }

  lemma DigitRoundTrip(d: nat)
    requires d < 10
    ensures DigitValue(Digit(d)) == d
  {
    assert "0123456789"[d] as int == '0' as int + d;
  }

  /** Rendering a number and reading it back gives the number, so distinct periods name distinct columns. */
  lemma {:induction false} NatToStringRoundTrip(n: nat)
    ensures ParseNat(NatToString(n)) == n
  {
    if n < 10 {
      DigitRoundTrip(n);
      assert [Digit(n)][..0] == [];
    } else {
      var s := NatToString(n);
      assert s[..|s| - 1] == NatToString(n / 10);
      NatToStringRoundTrip(n / 10);
      DigitRoundTrip(n % 10);
    }
  }

  /**
   The name `f"{prefix}{period}{suffix}"` of a feature column. A prefix that
   differs from "Close" in one of its first two letters keeps the name off the
   price column the features are computed from.
   */
  function PeriodName(prefix: string, period: nat, suffix: string): (name: string)
    requires |prefix| >= 2 && (prefix[0] != 'C' || prefix[1] != 'l')
    ensures name != CloseName
  {
    var name := prefix + NatToString(period) + suffix;
    assert name[0] == prefix[0] && name[1] == prefix[1];
    assert CloseName[0] == 'C' && CloseName[1] == 'l';
    name
  }

  function EmaName(period: nat): string
  {
    PeriodName("EMA", period, "")
  }

  function DistanceMaName(madist: nat): string
  {
    PeriodName("Distance_MA", madist, "")
  }

  function DistanceEmaName(emadist: nat): string
  {
    PeriodName("Distance_EMA", emadist, "")
  }

  function CumulatedReturnName(period: nat): string
  {
    PeriodName("Cumulated_Return_", period, "d")
  }

  function RsiName(period: nat): string
  {
    PeriodName("RSI", period, "")
  }

  /** The two distance columns never share a name, whatever the two windows. */
  lemma DistanceNamesDiffer(madist: nat, emadist: nat)
    ensures DistanceMaName(madist) != DistanceEmaName(emadist)
  {
    assert DistanceMaName(madist)[..11][9] == 'M' && DistanceEmaName(emadist)[..12][9] == 'E';
  }

  /** With prefix and suffix fixed, different periods give different names. */
  lemma PeriodNameInjective(prefix: string, suffix: string, a: nat, b: nat)
    requires |prefix| >= 2 && (prefix[0] != 'C' || prefix[1] != 'l')
    requires a != b
    ensures PeriodName(prefix, a, suffix) != PeriodName(prefix, b, suffix)
  {
    var sa, sb := NatToString(a), NatToString(b);
    var na, nb := prefix + sa + suffix, prefix + sb + suffix;
    assert na[|prefix|..|na| - |suffix|] == sa;
    assert nb[|prefix|..|nb| - |suffix|] == sb;
    NatToStringRoundTrip(a);
    NatToStringRoundTrip(b);
  }
}

=== FILE: momentum.dfy ===
/**
 Relative Strength Index: the daily change of the close is split into a gain
 and a loss magnitude, each is averaged over a trailing window, and
 `RSI = 100 - 100 / (1 + avg_gain / avg_loss)` in IEEE 754 arithmetic.
 */
module Momentum {
  import opened Wrappers
  import opened Series
  import opened Rolling

  /** `delta.clip(lower=0)` with `delta = close.diff()`. */
  function Gains(c: Column): (r: Column)
    ensures |r| == |c|
  {
    ClipLower(Diff(c), 0.0)
  }

  /** `-delta.clip(upper=0)`. */
  function Losses(c: Column): (r: Column)
    ensures |r| == |c|
  {
    Negate(ClipUpper(Diff(c), 0.0))
  }

  /** The IEEE 754 values a quotient of two non-negative floats can take. */
  datatype Quotient = Finite(v: real) | PlusInfinity | NotANumber

  /** `a / b` for non-negative `a` and `b`: x/0 is +inf for x > 0 and 0/0 is NaN. */
  function Divide(a: real, b: real): Quotient
    requires a >= 0.0 && b >= 0.0
  {
    if b > 0.0 then Finite(a / b)
    else if a > 0.0 then PlusInfinity
    else NotANumber
  }

  /** `100 - 100 / (1 + rs)`: 100 / (1 + inf) is 0, and NaN stays NaN. */
  function RsiFromRatio(rs: Quotient): Option<real>
    requires rs.Finite? ==> rs.v >= 0.0
  {
    match rs
    case Finite(x) => Some(100.0 - 100.0 / (1.0 + x))
    case PlusInfinity => Some(100.0)
    case NotANumber => None
  }

  /** One row of the RSI from the two averages; a missing average makes the row missing. */
  function RsiCell(avgGain: Option<real>, avgLoss: Option<real>): Option<real>
    requires avgGain.Some? ==> avgGain.value >= 0.0
    requires avgLoss.Some? ==> avgLoss.value >= 0.0
  {
    if avgGain.None? || avgLoss.None? then None
    else RsiFromRatio(Divide(avgGain.value, avgLoss.value))
  }

  /** Averages of non-negative cells are non-negative. */
  lemma AverageNonNegative(c: Column, w: nat)
    requires 1 <= w
    requires forall i :: 0 <= i < |c| ==> c[i].Some? ==> c[i].value >= 0.0
    ensures forall i :: 0 <= i < |c| ==> MovingAverage(c, w)[i].Some? ==> MovingAverage(c, w)[i].value >= 0.0
  {
    forall i | w <= i + 1 <= |c| && Complete(Window(c, w, i))
      ensures Mean(Values(Window(c, w, i))) >= 0.0
    {
      var win := Values(Window(c, w, i));
      SumOfNonNegatives(win);
    }
  }

  function AverageGain(c: Column, p: nat): (r: Column)
    requires p >= 1
    ensures |r| == |c|
    ensures forall i :: 0 <= i < |c| ==> r[i].Some? ==> r[i].value >= 0.0
  {
    GainLossSplit(c);
    AverageNonNegative(Gains(c), p);
    MovingAverage(Gains(c), p)
  }

  function AverageLoss(c: Column, p: nat): (r: Column)
    requires p >= 1
    ensures |r| == |c|
    ensures forall i :: 0 <= i < |c| ==> r[i].Some? ==> r[i].value >= 0.0
  {
    GainLossSplit(c);
    AverageNonNegative(Losses(c), p);
    MovingAverage(Losses(c), p)
  }

  /** The `RSI{p}` column. */
  function Rsi(c: Column, p: nat): (r: Column)
    requires p >= 1
    ensures |r| == |c|
  {
    var gain, loss := AverageGain(c, p), AverageLoss(c, p);
    seq(|c|, i requires 0 <= i < |c| => RsiCell(gain[i], loss[i]))
  }

  /**
   The split of a daily change: both parts are non-negative, at most one is
   non-zero, and gain minus loss is the change. Both are missing exactly where
   the change is (row 0 and next to a missing close).
   */
  lemma GainLossSplit(c: Column)
    ensures forall i :: 0 <= i < |c| ==>
              (Gains(c)[i].Some? <==> Diff(c)[i].Some?) && (Losses(c)[i].Some? <==> Diff(c)[i].Some?)
    ensures forall i :: 1 <= i < |c| && c[i].Some? && c[i - 1].Some? ==>
              var g, l := Gains(c)[i].value, Losses(c)[i].value;
              && g >= 0.0 && l >= 0.0
              && g - l == c[i].value - c[i - 1].value
              && (g == 0.0 || l == 0.0)
  {
  }

  lemma Cancel(a: real, b: real, k: real)
    requires k != 0.0 && a * k == b * k
    ensures a == b
  {
    assert (a - b) * k == 0.0;
  }

  /** For a positive average loss, 100 - 100 / (1 + g / l) is 100 * g / (g + l). */
  lemma FiniteRatioFormula(g: real, l: real)
    requires g >= 0.0 && l > 0.0
    ensures 100.0 - 100.0 / (1.0 + g / l) == 100.0 * g / (g + l)
  {
    var d := 1.0 + g / l;
    assert d * l == l + g by {
      assert (g / l) * l == g;
    }
    var u := 100.0 / d;
    assert u * (g + l) == 100.0 * l by {
      assert u * d == 100.0;
      assert u * (g + l) == (u * d) * l;
    }
    var t := 100.0 * g / (g + l);
    assert t * (g + l) == 100.0 * g;
    Cancel(100.0 - u, t, g + l);
  }

  /** The IEEE formula agrees with the closed form 100 * g / (g + l), and is missing when both averages are zero. */
  lemma RsiClosedForm(g: real, l: real)
    requires g >= 0.0 && l >= 0.0
    ensures RsiCell(Some(g), Some(l)) == if g + l == 0.0 then None else Some(100.0 * g / (g + l))
  {
    if l > 0.0 {
      FiniteRatioFormula(g, l);
    } else if g > 0.0 {
      Cancel(100.0 * g / (g + l), 100.0, g);
    }
  }

  /** Where present, 100 * g / (g + l) lies in [0, 100]. */
  lemma ClosedFormBounds(g: real, l: real)
    requires g >= 0.0 && l >= 0.0 && g + l > 0.0
    ensures 0.0 <= 100.0 * g / (g + l) <= 100.0
  {
    assert 100.0 * g <= 100.0 * (g + l);
  }

  /** The daily changes over the `p` rows ending at `i`, when all closes from `i - p` on are present. */
  ghost predicate WindowPresent(c: Column, p: nat, i: nat)
  {
    p <= i < |c| && forall k :: i - p <= k <= i ==> c[k].Some?
  }

  /**
   The RSI needs `p` changes, hence `p + 1` closes: a row is present only when
   every close from `i - p` to `i` is (a missing close makes two changes missing,
   and a window with a missing change has no average). Where present it lies
   within [0, 100].
   */
  lemma RsiShape(c: Column, p: nat)
    requires p >= 1
    ensures forall i :: 0 <= i < |c| && Rsi(c, p)[i].Some? ==> WindowPresent(c, p, i)
    ensures forall i :: 0 <= i < |c| && i < p ==> Rsi(c, p)[i].None?
    ensures forall i :: 0 <= i < |c| && Rsi(c, p)[i].Some? ==> 0.0 <= Rsi(c, p)[i].value <= 100.0
  {
    var gain, loss := AverageGain(c, p), AverageLoss(c, p);
    forall i | 0 <= i < |c| && Rsi(c, p)[i].Some?
      ensures WindowPresent(c, p, i)
      ensures 0.0 <= Rsi(c, p)[i].value <= 100.0
    {
      GainPresentWindow(c, p, i);
      RsiClosedForm(gain[i].value, loss[i].value);
      ClosedFormBounds(gain[i].value, loss[i].value);
    }
  }

  /** A present average gain at row `i` needs every close from `i - p` to `i`. */
  lemma GainPresentWindow(c: Column, p: nat, i: nat)
    requires p >= 1 && i < |c| && AverageGain(c, p)[i].Some?
    ensures WindowPresent(c, p, i)
  {
    var g, d := Gains(c), Diff(c);
    assert p <= i + 1 && Complete(Window(g, p, i));
    forall k | i + 1 - p <= k <= i
      ensures d[k].Some?
    {
      assert Window(g, p, i)[k - (i + 1 - p)] == g[k];
    }
    assert d[i + 1 - p].Some?;
    forall k | i - p <= k <= i
      ensures c[k].Some?
    {
      assert d[if k == i - p then k + 1 else k].Some?;
    }
  }

  /** The up-moves `max(close[k] - close[k-1], 0)` for `k` from `i - p + 1` to `i`. */
  function UpMoves(c: Column, p: nat, i: nat): (r: seq<real>)
    requires WindowPresent(c, p, i)
    ensures |r| == p
  {
    seq(p, j requires 0 <= j < p =>
      var d := c[i - p + 1 + j].value - c[i - p + j].value; if d > 0.0 then d else 0.0)
  }

  /** The down-moves `max(close[k-1] - close[k], 0)` for `k` from `i - p + 1` to `i`. */
  function DownMoves(c: Column, p: nat, i: nat): (r: seq<real>)
    requires WindowPresent(c, p, i)
    ensures |r| == p
  {
    seq(p, j requires 0 <= j < p =>
      var d := c[i - p + 1 + j].value - c[i - p + j].value; if d < 0.0 then -d else 0.0)
  }

  /** Over a window of present closes, the average gain and loss are the means of the up- and down-moves. */
  lemma AveragesOfWindow(c: Column, p: nat, i: nat)
    requires p >= 1 && WindowPresent(c, p, i)
    ensures AverageGain(c, p)[i] == Some(Mean(UpMoves(c, p, i)))
    ensures AverageLoss(c, p)[i] == Some(Mean(DownMoves(c, p, i)))
  {
    var gw, lw := Window(Gains(c), p, i), Window(Losses(c), p, i);
    forall j | 0 <= j < p
      ensures gw[j] == Some(UpMoves(c, p, i)[j]) && lw[j] == Some(DownMoves(c, p, i)[j])
    {
      assert gw[j] == Gains(c)[i + 1 - p + j] && lw[j] == Losses(c)[i + 1 - p + j];
    }
    assert Values(gw) == UpMoves(c, p, i);
    assert Values(lw) == DownMoves(c, p, i);
  }

  /** Dividing both averages by the window length leaves the closed form unchanged. */
  lemma ClosedFormOfSums(u: real, d: real, n: real, g: real, l: real)
    requires u >= 0.0 && d >= 0.0 && n > 0.0
    requires g == u / n && l == d / n
    ensures RsiCell(Some(g), Some(l)) == if u + d == 0.0 then None else Some(100.0 * u / (u + d))
  {
    RsiClosedForm(g, l);
    assert g + l == (u + d) / n;
    if u + d != 0.0 {
      var t, w := 100.0 * g / (g + l), (u + d) / n;
      assert t * w == 100.0 * g;
      assert t * w * n == t * (u + d) && 100.0 * g * n == 100.0 * u;
      var v := 100.0 * u / (u + d);
      assert v * (u + d) == 100.0 * u;
      Cancel(t, v, u + d);
    }
  }

  /**
   Over a window of present closes the RSI is `100 * U / (U + D)`, with `U` and
   `D` the sums of the up- and down-moves, and missing when the price did not
   move (`U + D = 0`).
   */
  lemma RsiValue(c: Column, p: nat, i: nat)
    requires p >= 1 && WindowPresent(c, p, i)
    ensures var u, d := Sum(UpMoves(c, p, i)), Sum(DownMoves(c, p, i));
            Rsi(c, p)[i] == if u + d == 0.0 then None else Some(100.0 * u / (u + d))
  {
    AveragesOfWindow(c, p, i);
    var up, down := UpMoves(c, p, i), DownMoves(c, p, i);
    SumOfNonNegatives(up);
    SumOfNonNegatives(down);
    var g, l := Mean(up), Mean(down);
    assert Rsi(c, p)[i] == RsiCell(Some(g), Some(l));
    ClosedFormOfSums(Sum(up), Sum(down), p as real, g, l);
  }

  /** A full window of non-negative cells averages to zero exactly when every cell is zero. */
  lemma AverageZeroIffAllZero(x: Column, p: nat, i: nat)
    requires 1 <= p <= i + 1 <= |x|
    requires forall k :: i + 1 - p <= k <= i ==> x[k].Some? && x[k].value >= 0.0
    ensures MovingAverage(x, p)[i].Some?
    ensures MovingAverage(x, p)[i].value == 0.0 <==> forall k :: i + 1 - p <= k <= i ==> x[k].value == 0.0
  {
    var win := Window(x, p, i);
    assert forall j :: 0 <= j < p ==> win[j] == x[i + 1 - p + j];
    var v := Values(win);
    assert MovingAverage(x, p)[i] == Some(Mean(v));
    MeanZeroIffAllZero(v);
    if forall j :: 0 <= j < p ==> v[j] == 0.0 {
      forall k | i + 1 - p <= k <= i
        ensures x[k].value == 0.0
      {
        assert v[k - (i + 1 - p)] == 0.0;
      }
    }
  }

  /** With every close of the window present, the average gain is zero exactly when no day rose. */
  lemma AverageGainZero(c: Column, p: nat, i: nat)
    requires p >= 1 && WindowPresent(c, p, i)
    ensures AverageGain(c, p)[i].Some?
    ensures AverageGain(c, p)[i].value == 0.0 <==> forall k :: i - p < k <= i ==> c[k].value <= c[k - 1].value
  {
    GainLossSplit(c);
    AverageZeroIffAllZero(Gains(c), p, i);
  }

  /** With every close of the window present, the average loss is zero exactly when no day fell. */
  lemma AverageLossZero(c: Column, p: nat, i: nat)
    requires p >= 1 && WindowPresent(c, p, i)
    ensures AverageLoss(c, p)[i].Some?
    ensures AverageLoss(c, p)[i].value == 0.0 <==> forall k :: i - p < k <= i ==> c[k].value >= c[k - 1].value
  {
    GainLossSplit(c);
    AverageZeroIffAllZero(Losses(c), p, i);
  }

  /** Every daily change over the window is an up-move or flat. */
  ghost predicate NoDownMove(c: Column, p: nat, i: nat)
    requires WindowPresent(c, p, i)
  {
    forall k :: i - p < k <= i ==> c[k].value >= c[k - 1].value
  }

  /** Every daily change over the window is a down-move or flat. */
  ghost predicate NoUpMove(c: Column, p: nat, i: nat)
    requires WindowPresent(c, p, i)
  {
    forall k :: i - p < k <= i ==> c[k].value <= c[k - 1].value
  }

  lemma StrictClosedFormBounds(g: real, l: real)
    requires g > 0.0 && l > 0.0
    ensures 0.0 < 100.0 * g / (g + l) < 100.0
  {
    var t := 100.0 * g / (g + l);
    assert t * (g + l) == 100.0 * g;
    assert 100.0 * g < 100.0 * (g + l);
  }

  /**
   Over a window with every close present: no down-move and at least one
   up-move gives exactly 100 (the zero-average-loss case, rs = +inf); a flat
   window gives a missing value (0/0); no up-move and at least one down-move
   gives exactly 0; any other window gives a value strictly between 0 and 100.
   */
  lemma RsiOfWindow(c: Column, p: nat, i: nat)
    requires p >= 1 && WindowPresent(c, p, i)
    ensures NoDownMove(c, p, i) && !NoUpMove(c, p, i) ==> Rsi(c, p)[i] == Some(100.0)
    ensures NoDownMove(c, p, i) && NoUpMove(c, p, i) ==> Rsi(c, p)[i] == None
    ensures !NoDownMove(c, p, i) && NoUpMove(c, p, i) ==> Rsi(c, p)[i] == Some(0.0)
    ensures !NoDownMove(c, p, i) && !NoUpMove(c, p, i) ==> Rsi(c, p)[i].Some? && 0.0 < Rsi(c, p)[i].value < 100.0
  {
    AverageGainZero(c, p, i);
    AverageLossZero(c, p, i);
    var g, l := AverageGain(c, p)[i].value, AverageLoss(c, p)[i].value;
    assert Rsi(c, p)[i] == RsiCell(Some(g), Some(l));
    assert NoUpMove(c, p, i) <==> g == 0.0;
    assert NoDownMove(c, p, i) <==> l == 0.0;
    if g > 0.0 && l > 0.0 {
      RsiClosedForm(g, l);
      StrictClosedFormBounds(g, l);
    }
  }
}

=== FILE: returns.dfy ===
/**
 Return-based columns of a positive closing-price series: daily percentage
 change, log return (through a supplied logarithm), rolling sample variance of
 the returns, and compounded returns over a trailing window.
 */
module Returns {
  import opened Wrappers
  import opened Series
  import opened Rolling

  /** `np.log(1 + returns)`; the logarithm itself is supplied by the caller. */
  function LogReturns(c: Column, ln: real -> real): (r: Column)
    requires PositivePrices(c)
    ensures |r| == |c|
  {
    MapPresent(PctChange(c), x => ln(1.0 + x))
  }

  /** `returns.rolling(window=w).var()`, the variance whose square root is the volatility. */
  function ReturnVariance(c: Column, w: nat): (r: Column)
    requires PositivePrices(c) && w >= 1
    ensures |r| == |c|
  {
    RollingColumn(PctChange(c), w, WindowVariance)
  }

  /** `(1 + returns).rolling(p).apply(lambda x: np.prod(x) - 1, raw=True)`. */
  function CumulatedReturns(c: Column, p: nat): (r: Column)
    requires PositivePrices(c) && p >= 1
    ensures |r| == |c|
  {
    RollingColumn(AddScalar(1.0, PctChange(c)), p, WindowProductMinusOne)
  }

  /**
   The daily return is missing on the first row only, and it inverts the price
   step: yesterday's close times one plus the return is today's close. It is
   always above -1, so its log is defined.
   */
  lemma ReturnsInvertPriceSteps(c: Column)
    requires PositivePrices(c)
    ensures forall i :: 0 <= i < |c| ==> (PctChange(c)[i].Some? <==> 1 <= i)
    ensures forall i :: 1 <= i < |c| ==>
              && PctChange(c)[i].value > -1.0
              && c[i - 1].value * (1.0 + PctChange(c)[i].value) == c[i].value
  {
    forall i | 1 <= i < |c|
      ensures PctChange(c)[i].value > -1.0
      ensures c[i - 1].value * (1.0 + PctChange(c)[i].value) == c[i].value
    {
      var x, y := c[i - 1].value, c[i].value;
      assert PctChange(c)[i].value == y / x - 1.0;
      assert y / x > 0.0;
      assert x * (y / x) == y;
    }
  }

  lemma CancelRatio(x: real, y: real, z: real)
    requires x > 0.0 && y > 0.0
    ensures (x / y) * (z / x) == z / y
  {
    calc {
      (x / y) * (z / x);
      == (x * z) / (y * x);
      == z / y;
    }
  }

  lemma RatioToSelf(x: real)
    requires x > 0.0
    ensures x / x == 1.0
  {
  }

  /** Multiplying the ratio so far by the next growth factor moves its end price forward. */
  lemma TelescopeStep(x: real, y: real, z: real, sofar: real, factor: real)
    requires x > 0.0 && y > 0.0
    requires sofar == y / x && factor == 1.0 + (z / y - 1.0)
    ensures sofar * factor == z / x
  {
    assert factor == z / y;
    CancelRatio(y, x, z);
  }

  /** A product of consecutive growth factors telescopes to the ratio of its end prices. */
  lemma {:induction false} ProductTelescopes(prices: seq<real>, g: seq<real>, a: nat)
    requires forall k :: 0 <= k < |prices| ==> prices[k] > 0.0
    requires 1 <= a && a + |g| <= |prices|
    requires forall k :: 0 <= k < |g| ==> g[k] == 1.0 + (prices[a + k] / prices[a + k - 1] - 1.0)
    ensures Product(g) == prices[a + |g| - 1] / prices[a - 1]
  {
    var n := |g|;
    if n > 0 {
      var init := g[..n - 1];
      assert forall k :: 0 <= k < |init| ==> init[k] == g[k];
      ProductTelescopes(prices, init, a);
      assert Product(g) == Product(init) * g[n - 1];
      TelescopeStep(prices[a - 1], prices[a + n - 2], prices[a + n - 1], Product(init), g[n - 1]);
    } else {
      RatioToSelf(prices[a - 1]);
    }
  }

  /**
   The cumulated return over `p` days is missing for the first `p` rows (one for
   the first return, `p - 1` for the window) and otherwise equals the price ratio
   across the window minus one: only the `p` most recent returns enter it.
   */
  lemma CumulatedReturnTelescopes(c: Column, p: nat)
    requires PositivePrices(c) && p >= 1
    ensures forall i :: 0 <= i < |c| ==>
              CumulatedReturns(c, p)[i] == if i < p then None else Some(c[i].value / c[i - p].value - 1.0)
  {
    var g := AddScalar(1.0, PctChange(c));
    RollingDefinedness(g, p, WindowProductMinusOne, 1);
    var prices := Values(c);
    forall i | p <= i < |c|
      ensures CumulatedReturns(c, p)[i] == Some(c[i].value / c[i - p].value - 1.0)
    {
      var win := Values(Window(g, p, i));
      forall k | 0 <= k < p
        ensures win[k] == 1.0 + (prices[i + 1 - p + k] / prices[i - p + k] - 1.0)
      {
        assert Window(g, p, i)[k] == g[i + 1 - p + k];
      }
      ProductTelescopes(prices, win, i + 1 - p);
    }
  }

  /** The `w` daily returns `close[k] / close[k-1] - 1` for `k` from `i + 1 - w` to `i`. */
  function ReturnWindow(c: Column, w: nat, i: nat): (r: seq<real>)
    requires PositivePrices(c) && 1 <= w <= i < |c|
    ensures |r| == w
  {
    seq(w, j requires 0 <= j < w => c[i + 1 - w + j].value / c[i - w + j].value - 1.0)
  }

  /** The cells of a window of the percentage change are that window's returns. */
  lemma ReturnWindowValues(c: Column, w: nat, i: nat)
    requires PositivePrices(c) && 1 <= w <= i < |c|
    ensures Complete(Window(PctChange(c), w, i))
    ensures Values(Window(PctChange(c), w, i)) == ReturnWindow(c, w, i)
    ensures forall k :: 0 <= k < w ==> ReturnWindow(c, w, i)[k] == PctChange(c)[i + 1 - w + k].value
  {
    var win := Window(PctChange(c), w, i);
    assert forall k :: 0 <= k < w ==> win[k] == PctChange(c)[i + 1 - w + k];
  }

  /**
   The return variance needs `w` returns, hence `w + 1` prices: it is missing for
   the first `w` rows, and always when `w = 1` (one observation has no sample
   variance). Where present it is the sample variance of the window's returns,
   non-negative, and zero exactly when the daily return is the same on every
   day of the window.
   */
  lemma ReturnVarianceShape(c: Column, w: nat)
    requires PositivePrices(c) && w >= 1
    ensures forall i :: 0 <= i < |c| ==> (ReturnVariance(c, w)[i].Some? <==> 2 <= w <= i)
    ensures forall i :: 2 <= w <= i < |c| ==>
              && ReturnVariance(c, w)[i].value == SampleVariance(ReturnWindow(c, w, i))
              && ReturnVariance(c, w)[i].value >= 0.0
              && (ReturnVariance(c, w)[i].value == 0.0 <==>
                    forall k :: i + 1 - w <= k <= i ==> PctChange(c)[k] == PctChange(c)[i + 1 - w])
  {
    var ret := PctChange(c);
    RollingDefinedness(ret, w, WindowVariance, 1);
    forall i | 2 <= w <= i < |c|
      ensures ReturnVariance(c, w)[i].value == SampleVariance(ReturnWindow(c, w, i))
      ensures ReturnVariance(c, w)[i].value >= 0.0
      ensures ReturnVariance(c, w)[i].value == 0.0 <==>
                forall k :: i + 1 - w <= k <= i ==> ret[k] == ret[i + 1 - w]
    {
      var win := Values(Window(ret, w, i));
      SampleVarianceZeroIffConstant(win);
      ReturnWindowValues(c, w, i);
      if forall k :: 0 <= k < w ==> win[k] == win[0] {
        forall k | i + 1 - w <= k <= i
          ensures ret[k] == ret[i + 1 - w]
        {
          assert win[k - (i + 1 - w)] == win[0];
        }
      }
    }
  }
}

=== FILE: rolling.dfy ===
/**
 Row-aligned column transforms with pandas' missing-value rules:
 `rolling(window=w)` with its default `min_periods = w`, `diff`, `pct_change`
 and element-wise maps that keep NaN as NaN.
 */
module Rolling {
  import opened Wrappers
  import opened Series

  /** The statistic a rolling window is reduced to. */
  datatype Statistic = WindowMean | WindowVariance | WindowProductMinusOne

  /** Reduces one full window. A single observation has no sample variance (NaN under `ddof=1`). */
  function Reduce(stat: Statistic, s: seq<real>): Option<real>
    requires |s| >= 1
  {
    match stat
    case WindowMean => Some(Mean(s))
    case WindowVariance => if |s| < 2 then None else Some(SampleVariance(s))
    case WindowProductMinusOne => Some(Product(s) - 1.0)
  }

  /** The `w` cells ending at row `i`. */
  function Window(c: Column, w: nat, i: nat): (r: Column)
    requires w <= i + 1 <= |c|
    ensures |r| == w
  {
    c[i + 1 - w..i + 1]
  }

  /** Row `i` of `c.rolling(window=w).<stat>()`: a row needs `w` rows of history, all present. */
  function RollingAt(c: Column, w: nat, stat: Statistic, i: nat): Option<real>
    requires 1 <= w && i < |c|
  {
    if i + 1 < w then None
    else if Complete(Window(c, w, i)) then Reduce(stat, Values(Window(c, w, i)))
    else None
  }

  function RollingColumn(c: Column, w: nat, stat: Statistic): (r: Column)
    requires 1 <= w
    ensures |r| == |c|
  {
    seq(|c|, i requires 0 <= i < |c| => RollingAt(c, w, stat, i))
  }

  /** The moving-average column of `c`, as a property of a candidate column `m`. */
  ghost predicate IsMovingAverage(m: Column, c: Column, w: nat)
    requires 1 <= w
  {
    && |m| == |c|
    && forall i :: 0 <= i < |c| ==>
         m[i] == (if w <= i + 1 && Complete(Window(c, w, i)) then Some(Mean(Values(Window(c, w, i)))) else None)
  }

  /** `c.rolling(window=w).mean()`. */
  function MovingAverage(c: Column, w: nat): (r: Column)
    requires 1 <= w
    ensures IsMovingAverage(r, c, w)
  {
    RollingColumn(c, w, WindowMean)
  }

  /**
   Leading-gap arithmetic of a rolling window: when exactly the first `lead` cells
   of the input are missing, exactly the first `lead + w - 1` rows of the output are,
   except that a sample variance over one observation is always missing.
   */
  lemma RollingDefinedness(c: Column, w: nat, stat: Statistic, lead: nat)
    requires 1 <= w
    requires forall k :: 0 <= k < |c| ==> (c[k].Some? <==> lead <= k)
    ensures forall i :: 0 <= i < |c| ==>
              (RollingColumn(c, w, stat)[i].Some? <==> lead + w <= i + 1 && (stat != WindowVariance || 2 <= w))
  {
    forall i | 0 <= i < |c|
      ensures RollingColumn(c, w, stat)[i].Some? <==> lead + w <= i + 1 && (stat != WindowVariance || 2 <= w)
    {
      if w <= i + 1 {
        var win := Window(c, w, i);
        if lead + w <= i + 1 {
          assert Complete(win);
        } else {
          assert win[0] == c[i + 1 - w];
          assert !Complete(win);
        }
      }
    }
  }

  /** `c.diff()`: the change from the previous row; missing at row 0 and next to a gap. */
  function Diff(c: Column): (r: Column)
    ensures |r| == |c|
  {
    seq(|c|, i requires 0 <= i < |c| =>
      if i == 0 || c[i].None? || c[i - 1].None? then None else Some(c[i].value - c[i - 1].value))
  }

  /** `c.pct_change()` of a column of positive prices; only row 0 is missing. */
  function PctChange(c: Column): (r: Column)
    requires PositivePrices(c)
    ensures |r| == |c|
  {
    seq(|c|, i requires 0 <= i < |c| => if i == 0 then None else Some(c[i].value / c[i - 1].value - 1.0))
  }

  /** An element-wise operation: NaN stays NaN, present values go through `f`. */
  function MapPresent(c: Column, f: real -> real): (r: Column)
    ensures |r| == |c|
  {
    seq(|c|, i requires 0 <= i < |c| => match c[i] case None => None case Some(x) => Some(f(x)))
  }

  /** `c.clip(lower=bound)`. */
  function ClipLower(c: Column, bound: real): (r: Column)
    ensures |r| == |c|
  {
    MapPresent(c, x => if x < bound then bound else x)
  }

  /** `c.clip(upper=bound)`. */
  function ClipUpper(c: Column, bound: real): (r: Column)
    ensures |r| == |c|
  {
    MapPresent(c, x => if x > bound then bound else x)
  }

  /** `-c`. */
  function Negate(c: Column): (r: Column)
    ensures |r| == |c|
  {
    MapPresent(c, x => -x)
  }

  /** `k + c`. */
  function AddScalar(k: real, c: Column): (r: Column)
    ensures |r| == |c|
  {
    MapPresent(c, x => k + x)
  }

  // Sliding-window evaluation of the rolling mean, the way pandas computes it:
  // keep a running sum and a count of present observations, add the entering
  // cell and subtract the leaving one.

  function Cell(x: Option<real>): real
  {
    if x.Some? then x.value else 0.0
  }

  /** Sum of the present cells. */
  function PresentSum(c: Column): real
  {
    if |c| == 0 then 0.0 else PresentSum(c[..|c| - 1]) + Cell(c[|c| - 1])
  }

  /** Number of present cells. */
  function PresentCount(c: Column): nat
  {
    if |c| == 0 then 0 else PresentCount(c[..|c| - 1]) + (if c[|c| - 1].Some? then 1 else 0)
  }

  /** Removing the oldest cell from a window. */
  lemma {:induction false} PresentFront(c: Column)
    requires |c| > 0
    ensures PresentSum(c) == Cell(c[0]) + PresentSum(c[1..])
    ensures PresentCount(c) == (if c[0].Some? then 1 else 0) + PresentCount(c[1..])
  {
    if |c| > 1 {
      PresentFront(c[..|c| - 1]);
      assert c[..|c| - 1][1..] == c[1..][..|c[1..]| - 1];
    }
  }

  /** A window holds as many observations as cells exactly when none is missing, and then its present sum is its sum. */
  lemma {:induction false} PresentCountFull(c: Column)
    ensures PresentCount(c) <= |c|
    ensures PresentCount(c) == |c| <==> Complete(c)
    ensures Complete(c) ==> PresentSum(c) == Sum(Values(c))
  {
    if |c| > 0 {
      var init := c[..|c| - 1];
      PresentCountFull(init);
      if PresentCount(c) == |c| {
        assert PresentCount(init) == |init|;
        forall k | 0 <= k < |c|
          ensures c[k].Some?
        {
          if k < |init| {
            assert init[k] == c[k];
          }
        }
      }
      if Complete(c) {
        assert Complete(init);
        assert Values(c)[..|c| - 1] == Values(init);
      }
    }
  }

  /** Start of the window of the row before `i`. */
  function WindowStart(i: nat, w: nat): nat
  {
    if i < w then 0 else i - w
  }

  /** Moving the window one row forward adds the entering cell and drops the leaving one. */
  lemma WindowSlide(c: Column, w: nat, i: nat)
    requires 1 <= w && i < |c|
    ensures PresentSum(c[WindowStart(i + 1, w)..i + 1])
            == PresentSum(c[WindowStart(i, w)..i]) + Cell(c[i]) - (if i >= w then Cell(c[i - w]) else 0.0)
    ensures PresentCount(c[WindowStart(i + 1, w)..i + 1])
            == PresentCount(c[WindowStart(i, w)..i]) + (if c[i].Some? then 1 else 0)
               - (if i >= w && c[i - w].Some? then 1 else 0)
  {
    var lo := WindowStart(i, w);
    assert c[lo..i + 1][..i - lo] == c[lo..i];
    if i >= w {
      PresentFront(c[lo..i + 1]);
      assert c[lo..i + 1][1..] == c[lo + 1..i + 1];
    }
  }

  /** A row of the rolling mean, read off the running sum `sum` and observation count `nobs` of its window. */
  lemma RowFromRunningSum(c: Column, w: nat, i: nat, sum: real, nobs: int)
    requires 1 <= w && i < |c|
    requires sum == PresentSum(c[WindowStart(i + 1, w)..i + 1])
    requires nobs == PresentCount(c[WindowStart(i + 1, w)..i + 1])
    ensures RollingAt(c, w, WindowMean, i) == if w <= i + 1 && nobs == w then Some(sum / w as real) else None
  {
    if w <= i + 1 {
      var win := Window(c, w, i);
      assert win == c[WindowStart(i + 1, w)..i + 1];
      PresentCountFull(win);
    }
  }

  /** pandas' sliding-window mean, equal to the window-by-window definition. */
  method RollingMeanOnline(c: Column, w: nat) returns (r: Column)
    requires 1 <= w
    ensures IsMovingAverage(r, c, w)
  {
    ghost var spec := MovingAverage(c, w);
    r := [];
    var sum := 0.0;
    var nobs := 0;
    var i := 0;
    while i < |c|
      invariant 0 <= i <= |c|
      invariant r == spec[..i]
      invariant sum == PresentSum(c[WindowStart(i, w)..i])
      invariant nobs == PresentCount(c[WindowStart(i, w)..i])
    {
      WindowSlide(c, w, i);
      // Add the entering observation and drop the leaving one; a missing cell counts for nothing.
      sum := sum + Cell(c[i]) - (if i >= w then Cell(c[i - w]) else 0.0);
      nobs := nobs + (if c[i].Some? then 1 else 0) - (if i >= w && c[i - w].Some? then 1 else 0);
      RowFromRunningSum(c, w, i, sum, nobs);
      var row := if w <= i + 1 && nobs == w then Some(sum / w as real) else None;
      assert spec[..i + 1] == spec[..i] + [row];
      r := r + [row];
      i := i + 1;
    }
    assert r == spec;
  }

  /** The moving average of a column with no gaps is present from row `w - 1` on, inside the window's range. */
  lemma MovingAverageOfCompleteColumn(c: Column, w: nat)
    requires 1 <= w
    requires Complete(c)
    ensures forall i :: 0 <= i < |c| ==> (MovingAverage(c, w)[i].Some? <==> w <= i + 1)
    ensures forall i :: w <= i + 1 <= |c| ==>
              Min(Values(Window(c, w, i))) <= MovingAverage(c, w)[i].value <= Max(Values(Window(c, w, i)))
  {
    RollingDefinedness(c, w, WindowMean, 0);
    forall i | w <= i + 1 <= |c|
      ensures Min(Values(Window(c, w, i))) <= MovingAverage(c, w)[i].value <= Max(Values(Window(c, w, i)))
    {
      MeanWithinRange(Values(Window(c, w, i)));
    }
  }
}

=== FILE: series.dfy ===
/**
 Columns of a price frame and the exact-real statistics computed over them:
 sums, products, means, sample variances, minima and maxima.
 */
module Series {
  import opened Wrappers

  /** A float column of a pandas frame; `None` stands for NaN. */
  type Column = seq<Option<real>>

  /** No cell of the column is missing. */
  predicate Complete(c: Column)
  {
    forall k :: 0 <= k < |c| ==> c[k].Some?
  }

  /** Every cell is present and strictly positive, as daily closing prices are. */
  predicate PositivePrices(c: Column)
  {
    forall k :: 0 <= k < |c| ==> c[k].Some? && c[k].value > 0.0
  }

  /** The present values of a complete column, in order. */
  function Values(c: Column): (r: seq<real>)
    requires Complete(c)
    ensures |r| == |c|
    ensures forall k :: 0 <= k < |c| ==> r[k] == c[k].value
  {
    if |c| == 0 then [] else Values(c[..|c| - 1]) + [c[|c| - 1].value]
  }

  function Sum(s: seq<real>): real
  {
    if |s| == 0 then 0.0 else Sum(s[..|s| - 1]) + s[|s| - 1]
  }

  function Product(s: seq<real>): real
  {
    if |s| == 0 then 1.0 else Product(s[..|s| - 1]) * s[|s| - 1]
  }

  function Mean(s: seq<real>): real
    requires |s| > 0
  {
    Sum(s) / |s| as real
  }

  function Square(x: real): real
  {
    x * x
  }

  /** The squared deviations of each value from `m`. */
  function SquaredDeviations(s: seq<real>, m: real): (r: seq<real>)
    ensures |r| == |s|
  {
    seq(|s|, k requires 0 <= k < |s| => Square(s[k] - m))
  }

  /** Unbiased (n-1 divisor) variance, pandas' default `ddof=1`. */
  function SampleVariance(s: seq<real>): real
    requires |s| >= 2
  {
    Sum(SquaredDeviations(s, Mean(s))) / (|s| - 1) as real
  }

  function Min(s: seq<real>): (m: real)
    requires |s| > 0
    ensures forall k :: 0 <= k < |s| ==> m <= s[k]
    ensures exists k :: 0 <= k < |s| && m == s[k]
  {
    if |s| == 1 then s[0]
    else
      var rest := Min(s[..|s| - 1]);
      assert forall k :: 0 <= k < |s| - 1 ==> s[..|s| - 1][k] == s[k];
      if s[|s| - 1] < rest then s[|s| - 1] else rest
  }

  function Max(s: seq<real>): (m: real)
    requires |s| > 0
    ensures forall k :: 0 <= k < |s| ==> s[k] <= m
    ensures exists k :: 0 <= k < |s| && m == s[k]
  {
    if |s| == 1 then s[0]
    else
      var rest := Max(s[..|s| - 1]);
      assert forall k :: 0 <= k < |s| - 1 ==> s[..|s| - 1][k] == s[k];
      if s[|s| - 1] > rest then s[|s| - 1] else rest
  }

  /** A sum of values in [lo, hi] lies in [n*lo, n*hi]. */
  lemma {:induction false} SumBounds(s: seq<real>, lo: real, hi: real)
    requires forall k :: 0 <= k < |s| ==> lo <= s[k] <= hi
    ensures lo * |s| as real <= Sum(s) <= hi * |s| as real
  {
    if |s| > 0 {
      SumBounds(s[..|s| - 1], lo, hi);
      assert lo * |s| as real == lo * (|s| - 1) as real + lo;
      assert hi * |s| as real == hi * (|s| - 1) as real + hi;
    }
  }

  /** The mean of values in [lo, hi] lies in [lo, hi]. */
  lemma MeanBounds(s: seq<real>, lo: real, hi: real)
    requires |s| > 0
    requires forall k :: 0 <= k < |s| ==> lo <= s[k] <= hi
    ensures lo <= Mean(s) <= hi
  {
    SumBounds(s, lo, hi);
    var n := |s| as real;
    assert Mean(s) * n == Sum(s);
  }

  /** The mean lies between the minimum and the maximum of the window. */
  lemma MeanWithinRange(s: seq<real>)
    requires |s| > 0
    ensures Min(s) <= Mean(s) <= Max(s)
  {
    MeanBounds(s, Min(s), Max(s));
  }

  /** A sum of non-negative values is non-negative, and zero exactly when every value is. */
  lemma {:induction false} SumOfNonNegatives(s: seq<real>)
    requires forall k :: 0 <= k < |s| ==> s[k] >= 0.0
    ensures Sum(s) >= 0.0
    ensures Sum(s) == 0.0 <==> forall k :: 0 <= k < |s| ==> s[k] == 0.0
  {
    if |s| > 0 {
      var init := s[..|s| - 1];
      SumOfNonNegatives(init);
      if Sum(s) == 0.0 {
        forall k | 0 <= k < |s|
          ensures s[k] == 0.0
        {
          if k < |s| - 1 {
            assert init[k] == s[k];
          }
        }
      }
    }
  }

  /** A mean of non-negative values is zero exactly when every value is. */
  lemma MeanZeroIffAllZero(s: seq<real>)
    requires |s| > 0
    requires forall k :: 0 <= k < |s| ==> s[k] >= 0.0
    ensures Mean(s) == 0.0 <==> forall k :: 0 <= k < |s| ==> s[k] == 0.0
  {
    SumOfNonNegatives(s);
    assert Mean(s) * |s| as real == Sum(s);
  }

  /** A non-zero deviation contributes a strictly positive square. */
  lemma SquarePositive(x: real)
    requires x != 0.0
    ensures Square(x) > 0.0
  {
    if x < 0.0 {
      var y := -x;
      calc {
        Square(x);
        == x * x;
        == y * y;
        > { assert y * y > 0.0; } 0.0;
      }
    } else {
      calc {
        Square(x);
        == x * x;
        > { assert x * x > 0.0; } 0.0;
      }
    }
  }

  /** The sample variance is non-negative, and zero exactly when the window is constant. */
  lemma SampleVarianceZeroIffConstant(s: seq<real>)
    requires |s| >= 2
    ensures SampleVariance(s) >= 0.0
    ensures SampleVariance(s) == 0.0 <==> forall k :: 0 <= k < |s| ==> s[k] == s[0]
  {
    var m := Mean(s);
    var sq := SquaredDeviations(s, m);
    SumOfNonNegatives(sq);
    var n1 := (|s| - 1) as real;
    assert SampleVariance(s) * n1 == Sum(sq);
    if forall k :: 0 <= k < |s| ==> s[k] == s[0] {
      MeanBounds(s, s[0], s[0]);
      forall k | 0 <= k < |s|
        ensures sq[k] == 0.0
      {
      }
    }
    if SampleVariance(s) == 0.0 {
      forall k | 0 <= k < |s|
        ensures s[k] == m
      {
        assert sq[k] == 0.0;
        if s[k] != m {
          SquarePositive(s[k] - m);
        }
      }
    }
  }
}

=== FILE: wrappers.dfy ===
/** An optional value, standing for a cell that may hold pandas' missing value (NaN). */
module Wrappers {

  /** `None` plays the role of a NaN cell; `Some(v)` is a present value. */
  datatype Option<+T> = None | Some(value: T)
}
